=== FILE: README.md ===
# appium-ios-tuntap: the native TUN/TAP driver, modelled in Dafny

`tuntap.cc` is the Node.js add-on behind `TunDevice`. It opens a TUN interface (a utun
control socket on Darwin, `/dev/net/tun` on Linux), names it, switches it to non-blocking
mode, and moves IPv6 packets between JavaScript and the kernel. On Darwin each packet is
framed with a 4-byte address-family header, and arriving packets can be pushed to a
JavaScript listener through a libuv poll handle.

The model keeps the driver's sequential core. The kernel is an oracle: every system call's
reply (success, an errno, a byte count, a name) is an input. Where a property depends on
what the kernel reports, the lemma states that report as a hypothesis.

- `Os` (os.dfy) holds the process descriptor table (`Descriptors`), the errno values the
  driver tests (EBUSY, EAGAIN), and the replies of read(2) and write(2).
- `Errors` (errors.dfy) lists the exceptions the native methods throw, and `Reply`, which
  pairs a returned value with the pending exception.
- `Handles` (file_descriptor.dfy) is the RAII class `FileDescriptor`. It is written as a
  class over the descriptor table. Descriptor numbers are never reused there, and a ghost set
  records every descriptor closed, so "closed at most once" and "nothing leaks" are provable.
- `Utun` (utun.dfy) covers the Darwin unit choice:
  - `std::stoi` of what follows "utun", plus one, in 32-bit `int` arithmetic;
  - the search loop over units 1..254, with its specification function `Search`.
- `Framing` (framing.dfy) holds the Darwin header `htonl(AF_INET6)` = `00 00 00 1E`, which is
  prepended on write and stripped on read, and the write count minus 4.
- `TunTap` (tun_device.dfy) is the `TunDevice` class:
  - `Open` is proved against the function `OpenAttempt`, which gives the outcome of an
    attempt from the platform, the requested name and the kernel's replies;
  - `Close`/`CloseInternal`, `Read`, `Write`, `StartPolling`/`StopPolling` and
    `PollCallback`;
  - ghost counters account for every poll handle and thread-safe function created.
- `Registry` (registry.dfy) is `g_active_devices` with `RegisterDevice` (push_back) and
  `UnregisterDevice` (erase-remove). It is a standalone list: nothing in the driver calls it.

The platform (`__APPLE__` or not) is a constant of each device, so both code paths are
modelled side by side.

## Model

| member | source | states |
|---|---|---|
| Os.Descriptors.OpenDescriptor | node_modules/appium-xcuitest-driver/node_modules/appium-ios-tuntap/src/tuntap.cc:198-199 | socket(2)/open(2) yield a fresh descriptor number, never open or closed before, on success, and -1 with the table unchanged on failure |
| Os.Descriptors.Close | node_modules/appium-xcuitest-driver/node_modules/appium-ios-tuntap/src/tuntap.cc:43-47 | ::close takes a descriptor the caller owns out of the open set; the descriptor was never closed before |
| Os.Received | node_modules/appium-xcuitest-driver/node_modules/appium-ios-tuntap/src/tuntap.cc:376 | read(2) asking for `count` bytes returns at most `count` bytes, a prefix of the queued packet, and all of it when it fits |
| Os.Written | node_modules/appium-xcuitest-driver/node_modules/appium-ios-tuntap/src/tuntap.cc:449 | write(2) of `length` bytes stores at most `length` and at most what the kernel accepts, and all of them when the kernel accepts that many |
| Handles.FileDescriptor.constructor | node_modules/appium-xcuitest-driver/node_modules/appium-ios-tuntap/src/tuntap.cc:40 | a default handle holds -1 and is not valid |
| Handles.FileDescriptor.Own | node_modules/appium-xcuitest-driver/node_modules/appium-ios-tuntap/src/tuntap.cc:41 | a handle built from a system call's result holds exactly that number |
| Handles.FileDescriptor.Take | node_modules/appium-xcuitest-driver/node_modules/appium-ios-tuntap/src/tuntap.cc:54-56 | the move constructor takes the source's descriptor and leaves the source holding -1 |
| Handles.FileDescriptor.Destroy | node_modules/appium-xcuitest-driver/node_modules/appium-ios-tuntap/src/tuntap.cc:43-47 | the destructor closes the held descriptor exactly when it is valid, nothing else |
| Handles.FileDescriptor.Release | node_modules/appium-xcuitest-driver/node_modules/appium-ios-tuntap/src/tuntap.cc:71-75 | release returns the held number, leaves -1 and closes nothing; the number stays open for its new owner |
| Handles.FileDescriptor.Reset | node_modules/appium-xcuitest-driver/node_modules/appium-ios-tuntap/src/tuntap.cc:79-84 | reset closes the old descriptor when it is valid, then holds the new number |
| Handles.FileDescriptor.MoveAssign | node_modules/appium-xcuitest-driver/node_modules/appium-ios-tuntap/src/tuntap.cc:58-67 | self-move changes nothing; otherwise the old descriptor is closed, the source's is taken and the source holds -1; no descriptor is closed twice |
| Handles.FileDescriptor.IsValid | node_modules/appium-xcuitest-driver/node_modules/appium-ios-tuntap/src/tuntap.cc:77 | is_valid(): the handle holds a descriptor exactly when its number is non-negative |
| Utun.IntIncrement | node_modules/appium-xcuitest-driver/node_modules/appium-ios-tuntap/src/tuntap.cc:227 | the `+ 1` on a C int: n + 1, except INT_MAX goes to INT_MIN |
| Utun.SkipSpace | node_modules/appium-xcuitest-driver/node_modules/appium-ios-tuntap/src/tuntap.cc:227 | std::stoi first drops leading white space: every dropped character is white space and the rest starts with a non-space |
| Utun.DigitsIsLongestDigitPrefix | node_modules/appium-xcuitest-driver/node_modules/appium-ios-tuntap/src/tuntap.cc:227 | stoi reads the longest run of digits at the start of its text |
| Utun.Decimal | node_modules/appium-xcuitest-driver/node_modules/appium-ios-tuntap/src/tuntap.cc:227 | a decimal numeral is non-empty and made of digits |
| Utun.DecimalRoundTrip | node_modules/appium-xcuitest-driver/node_modules/appium-ios-tuntap/src/tuntap.cc:227 | the digits of n read back as n |
| Utun.Stoi | node_modules/appium-xcuitest-driver/node_modules/appium-ios-tuntap/src/tuntap.cc:227 | std::stoi yields a value only inside the range of int; its lemmas below pin the value for negative, explicitly positive and unsigned numerals |
| Utun.DigitsStopAt | node_modules/appium-xcuitest-driver/node_modules/appium-ios-tuntap/src/tuntap.cc:227 | the digit run ends at the first non-digit |
| Utun.StoiUnsigned | node_modules/appium-xcuitest-driver/node_modules/appium-ios-tuntap/src/tuntap.cc:227 | stoi of digits followed by a non-digit is their value when it fits an int, and throws otherwise |
| Utun.StoiNegativeDecimal | node_modules/appium-xcuitest-driver/node_modules/appium-ios-tuntap/src/tuntap.cc:227 | a minus sign followed by the digits of n reads back as -n down to INT_MIN ("-2147483648"), and throws below it |
| Utun.SignedNegative | node_modules/appium-xcuitest-driver/node_modules/appium-ios-tuntap/src/tuntap.cc:227 | after the sign, digits of value v followed by a non-digit give -v when v is at most 2147483648, and throw otherwise |
| Utun.StoiNegative | node_modules/appium-xcuitest-driver/node_modules/appium-ios-tuntap/src/tuntap.cc:227 | stoi of a minus sign, digits of value v and a non-digit is -v down to INT_MIN, and throws below it, whatever leading zeros the digits carry |
| Utun.StoiSkipsSpace | node_modules/appium-xcuitest-driver/node_modules/appium-ios-tuntap/src/tuntap.cc:227 | a leading white-space character does not change stoi's result |
| Utun.StoiPlus | node_modules/appium-xcuitest-driver/node_modules/appium-ios-tuntap/src/tuntap.cc:227 | an explicit plus sign before digits (and a non-digit) changes nothing: "+N" reads as "N" |
| Utun.StoiDecimal | node_modules/appium-xcuitest-driver/node_modules/appium-ios-tuntap/src/tuntap.cc:227 | stoi reads a decimal number back, ignoring the non-digit text after it, and throws past INT_MAX |
| Utun.RequestedUnit | node_modules/appium-xcuitest-driver/node_modules/appium-ios-tuntap/src/tuntap.cc:224-231 | the requested unit is always a value of a C int; the lemmas below pin it for each shape of name |
| Utun.RequestedUnitWithoutPrefix | node_modules/appium-xcuitest-driver/node_modules/appium-ios-tuntap/src/tuntap.cc:225 | a name without the "utun" prefix, including the empty name, requests no unit |
| Utun.RequestedUnitOfSuffix | node_modules/appium-xcuitest-driver/node_modules/appium-ios-tuntap/src/tuntap.cc:225-230 | "utun" + suffix requests stoi(suffix) + 1, or 0 when stoi throws |
| Utun.RequestedUnitOfDigits | node_modules/appium-xcuitest-driver/node_modules/appium-ios-tuntap/src/tuntap.cc:225-227 | "utun" followed by digits of value below INT_MAX (and a non-digit) requests the unit one above that value |
| Utun.UtunNameRoundTrip | node_modules/appium-xcuitest-driver/node_modules/appium-ios-tuntap/src/tuntap.cc:227 | "utunN" (optionally followed by a non-digit) requests kernel unit N+1 |
| Utun.RequestedUnitOutOfRange | node_modules/appium-xcuitest-driver/node_modules/appium-ios-tuntap/src/tuntap.cc:228-230 | "utunN" with N beyond int makes stoi throw, so the unit is 0 (search) |
| Utun.RequestedUnitOverflow | node_modules/appium-xcuitest-driver/node_modules/appium-ios-tuntap/src/tuntap.cc:227 | "utun2147483647" overflows the `+ 1` to INT_MIN, which leads to the search |
| Utun.RequestedUnitNegative | node_modules/appium-xcuitest-driver/node_modules/appium-ios-tuntap/src/tuntap.cc:227 | "utun-N" requests 1-N, which is never above 1 |
| Utun.RequestedUnitOfMinusDigits | node_modules/appium-xcuitest-driver/node_modules/appium-ios-tuntap/src/tuntap.cc:225-227 | "utun-" followed by digits of value v up to INT_MAX requests 1-v |
| Utun.RequestedUnitPlus | node_modules/appium-xcuitest-driver/node_modules/appium-ios-tuntap/src/tuntap.cc:225-227 | "utun+N" requests the same unit as "utunN", so "utun+3" asks for unit 4 |
| Utun.Search | node_modules/appium-xcuitest-driver/node_modules/appium-ios-tuntap/src/tuntap.cc:245-255 | a unit found by the search lies in 1..254 |
| Utun.SearchFindsFirstFree | node_modules/appium-xcuitest-driver/node_modules/appium-ios-tuntap/src/tuntap.cc:245-249 | the search picks unit u iff u connects and every earlier unit answered EBUSY |
| Utun.SearchAbortsOnError | node_modules/appium-xcuitest-driver/node_modules/appium-ios-tuntap/src/tuntap.cc:249-254 | the first failure other than EBUSY aborts the search with that errno |
| Utun.SearchExhausted | node_modules/appium-xcuitest-driver/node_modules/appium-ios-tuntap/src/tuntap.cc:257-260 | "no available utun" iff all units 1..254 answered EBUSY |
| Utun.ChooseUnit | node_modules/appium-xcuitest-driver/node_modules/appium-ios-tuntap/src/tuntap.cc:233-261 | a positive requested unit is tried exactly once and its failure is final; otherwise the search runs |
| Utun.FindFreeUnit | node_modules/appium-xcuitest-driver/node_modules/appium-ios-tuntap/src/tuntap.cc:245-255 | the loop tries units 1, 2, ... in order, all before the last busy; its result is Search's; the unit found is the last one tried |
| Framing.BigEndian32 | node_modules/appium-xcuitest-driver/node_modules/appium-ios-tuntap/src/tuntap.cc:444 | htonl gives four bytes |
| Framing.BigEndian32RoundTrip | node_modules/appium-xcuitest-driver/node_modules/appium-ios-tuntap/src/tuntap.cc:444 | the four bytes read back big-endian give the value again |
| Framing.Inet6Header | node_modules/appium-xcuitest-driver/node_modules/appium-ios-tuntap/src/tuntap.cc:442-446 | the Darwin header is 00 00 00 1E |
| Framing.Frame | node_modules/appium-xcuitest-driver/node_modules/appium-ios-tuntap/src/tuntap.cc:443-447 | the bytes handed to write(2) are the header (Darwin only) followed by the unchanged packet |
| Framing.Unframe | node_modules/appium-xcuitest-driver/node_modules/appium-ios-tuntap/src/tuntap.cc:390-396 | the packet returned is a suffix of the bytes read; when more than the header arrived, it is all of them but the header |
| Framing.ReportedCount | node_modules/appium-xcuitest-driver/node_modules/appium-ios-tuntap/src/tuntap.cc:457-469 | the count reported for a write is between 0 and the bytes written, and is the bytes written minus the header whenever the header was written |
| Framing.FrameLayout | node_modules/appium-xcuitest-driver/node_modules/appium-ios-tuntap/src/tuntap.cc:443-449 | the frame is the header followed by the unchanged packet on Darwin, the packet itself on Linux |
| Framing.FrameOfIPv6Header | node_modules/appium-xcuitest-driver/node_modules/appium-ios-tuntap/src/tuntap.cc:449 | a 40-byte packet goes to the kernel as 44 bytes on Darwin |
| Framing.UnframeFrame | node_modules/appium-xcuitest-driver/node_modules/appium-ios-tuntap/src/tuntap.cc:390-396 | stripping the header from a frame the driver wrote gives back the packet |
| Framing.UnframeBound | node_modules/appium-xcuitest-driver/node_modules/appium-ios-tuntap/src/tuntap.cc:374-396 | a read of at most size+4 bytes on Darwin (size on Linux) returns at most size bytes, namely those after the header |
| Framing.ReportedCountIsPacketBytes | node_modules/appium-xcuitest-driver/node_modules/appium-ios-tuntap/src/tuntap.cc:457-469 | the count write() reports is between 0 and the packet length, is the whole packet when the whole frame was written, and counts exactly the packet bytes that were written |
| Framing.ReadBackFrame | node_modules/appium-xcuitest-driver/node_modules/appium-ios-tuntap/src/tuntap.cc:374-396 | reading a frame the driver wrote, with room for the packet, returns that packet |
| TunTap.UntilNul | node_modules/appium-xcuitest-driver/node_modules/appium-ios-tuntap/src/tuntap.cc:315 | std::string(char*) keeps the prefix before the first NUL and no NUL |
| TunTap.RequestName | node_modules/appium-xcuitest-driver/node_modules/appium-ios-tuntap/src/tuntap.cc:303-306 | the name sent with TUNSETIFF has at most 15 characters and no NUL, is a prefix of name_, stops only at 15 characters, a NUL or the end of name_, and is name_ itself when name_ is short and NUL-free |
| TunTap.UntilNulOfNulFree | node_modules/appium-xcuitest-driver/node_modules/appium-ios-tuntap/src/tuntap.cc:315 | a name without NUL is kept whole by std::string(char*) |
| TunTap.UtunNameIsNulFree | node_modules/appium-xcuitest-driver/node_modules/appium-ios-tuntap/src/tuntap.cc:273 | utun names hold no NUL, so the name getsockopt reports is kept whole |
| TunTap.NonBlocking | node_modules/appium-xcuitest-driver/node_modules/appium-ios-tuntap/src/tuntap.cc:318-332 | the fcntl step never changes the name and succeeds exactly when both fcntl calls do |
| TunTap.DarwinAttempt | node_modules/appium-xcuitest-driver/node_modules/appium-ios-tuntap/src/tuntap.cc:198-273 | a Darwin attempt succeeds only after the control socket, the control id, a unit and getsockopt succeeded, and takes the reported name |
| TunTap.LinuxAttempt | node_modules/appium-xcuitest-driver/node_modules/appium-ios-tuntap/src/tuntap.cc:279-315 | a Linux attempt succeeds only after stat, open and TUNSETIFF succeeded, and takes the name the kernel wrote back |
| TunTap.OpenAttempt | node_modules/appium-xcuitest-driver/node_modules/appium-ios-tuntap/src/tuntap.cc:180-339 | Open succeeds only when the descriptor was obtained and both fcntl calls succeeded; the name is then free of NUL |
| TunTap.OpenGetsRequestedUtun | node_modules/appium-xcuitest-driver/node_modules/appium-ios-tuntap/src/tuntap.cc:223-273 | asking for "utunN" yields exactly that interface when its unit connects and the kernel reports the name "utunN" |
| TunTap.OpenRequestedUtunBusy | node_modules/appium-xcuitest-driver/node_modules/appium-ios-tuntap/src/tuntap.cc:233-241 | a requested unit that fails to connect makes Open fail with that errno, without searching |
| TunTap.OpenTakesFirstFreeUnit | node_modules/appium-xcuitest-driver/node_modules/appium-ios-tuntap/src/tuntap.cc:243-273 | without a usable request, Open takes the first unit that connects after busy ones, and the device carries the name the kernel reports for it |
| TunTap.OpenNoFreeUnit | node_modules/appium-xcuitest-driver/node_modules/appium-ios-tuntap/src/tuntap.cc:257-260 | with all 254 units busy Open fails with "no available utun" and keeps the name |
| TunTap.LinuxOpenKeepsShortName | node_modules/appium-xcuitest-driver/node_modules/appium-ios-tuntap/src/tuntap.cc:296-315 | on Linux a short NUL-free name granted by the kernel stays the device's name |
| TunTap.OpenRenamesOnlyNamedDevices | node_modules/appium-xcuitest-driver/node_modules/appium-ios-tuntap/src/tuntap.cc:273-332 | name_ changes only once the interface exists: every earlier failure keeps it |
| TunTap.DarwinNameIsUnitName | node_modules/appium-xcuitest-driver/node_modules/appium-ios-tuntap/src/tuntap.cc:263-273 | once a unit connected and the kernel reported its name, the device carries that name even if the fcntl steps fail afterwards |
| TunTap.OpenWithoutSocket | node_modules/appium-xcuitest-driver/node_modules/appium-ios-tuntap/src/tuntap.cc:198-204 | when socket(2) fails, Open fails at once with that errno |
| TunTap.BufferSize | node_modules/appium-xcuitest-driver/node_modules/appium-ios-tuntap/src/tuntap.cc:362-365 | read() uses 4096 bytes by default, and otherwise the argument reduced modulo 2^32 (so -1 asks for 4294967295 bytes) |
| TunTap.TunDevice.constructor | node_modules/appium-xcuitest-driver/node_modules/appium-ios-tuntap/src/tuntap.cc:145-153 | a new device is closed, owns no descriptor and keeps a string argument as its name |
| TunTap.TunDevice.GetFd | node_modules/appium-xcuitest-driver/node_modules/appium-ios-tuntap/src/tuntap.cc:478-481 | getFd() is -1 when the device is closed; otherwise it is non-negative and names an open descriptor |
| TunTap.TunDevice.Acquire | node_modules/appium-xcuitest-driver/node_modules/appium-ios-tuntap/src/tuntap.cc:198-332 | the steps of Open after the descriptor was requested produce exactly OpenAttempt's outcome |
| TunTap.TunDevice.Open | node_modules/appium-xcuitest-driver/node_modules/appium-ios-tuntap/src/tuntap.cc:180-339 | open returns true at once when already open; shutdown throws; otherwise the reply and name follow OpenAttempt; success keeps the new descriptor; every failure leaves fd_ and the set of open descriptors as they were; when socket (macOS) or open (Linux) gave a descriptor and a later step failed, that descriptor is closed again and is the only one added to the closed set; when the device node is missing or socket or open fails, no descriptor is opened and the table's numbering and closed set are unchanged; success closes nothing |
| TunTap.TunDevice.StopPolling | node_modules/appium-xcuitest-driver/node_modules/appium-ios-tuntap/src/tuntap.cc:522-532 | the poll handle and thread-safe function are freed, each exactly once, and both are left empty |
| TunTap.TunDevice.CloseInternal | node_modules/appium-xcuitest-driver/node_modules/appium-ios-tuntap/src/tuntap.cc:173-178 | the first call after open stops polling and closes the descriptor; a call on a closed device changes nothing |
| TunTap.TunDevice.Close | node_modules/appium-xcuitest-driver/node_modules/appium-ios-tuntap/src/tuntap.cc:341-346 | close() always answers true and closes as CloseInternal does |
| TunTap.TunDevice.Destroy | node_modules/appium-xcuitest-driver/node_modules/appium-ios-tuntap/src/tuntap.cc:155-158 | the destructor closes the descriptor and leaves no poll handle or thread-safe function behind |
| TunTap.TunDevice.Read | node_modules/appium-xcuitest-driver/node_modules/appium-ios-tuntap/src/tuntap.cc:348-415 | the guards (not open, shutdown), then bytes 4.. of what read(2) delivered on Darwin or all of it on Linux, never more than the size asked; EAGAIN gives an empty buffer, other errors throw |
| TunTap.TunDevice.Write | node_modules/appium-xcuitest-driver/node_modules/appium-ios-tuntap/src/tuntap.cc:417-471 | the guards (not open, shutdown, not a buffer) in order; the kernel receives the framed packet; the count is the packet bytes written, the whole packet on a full write; a failed write gives -1 and an exception |
| TunTap.TunDevice.StartPolling | node_modules/appium-xcuitest-driver/node_modules/appium-ios-tuntap/src/tuntap.cc:483-520 | open and a function are required; the earlier polling is stopped first, so at most one handle exists; the device polls its own descriptor iff uv_poll_init and uv_poll_start succeed |
| TunTap.TunDevice.PollCallback | node_modules/appium-xcuitest-driver/node_modules/appium-ios-tuntap/src/tuntap.cc:534-570 | a packet is delivered iff the status is not an error, the event is readable, the device is open and read(2) returned more than the header; it is the read bytes without the Darwin header |
| Registry.Without | node_modules/appium-xcuitest-driver/node_modules/appium-ios-tuntap/src/tuntap.cc:167-170 | the list after erase-remove is never longer than before; the lemmas below say exactly which entries stay |
| Registry.WithoutAppend | node_modules/appium-xcuitest-driver/node_modules/appium-ios-tuntap/src/tuntap.cc:168-169 | removal is stable: it distributes over concatenation |
| Registry.WithoutRemoves | node_modules/appium-xcuitest-driver/node_modules/appium-ios-tuntap/src/tuntap.cc:168-169 | no entry equal to the device is left |
| Registry.WithoutKeepsOthers | node_modules/appium-xcuitest-driver/node_modules/appium-ios-tuntap/src/tuntap.cc:168-169 | every other device keeps its number of entries |
| Registry.WithoutAbsent | node_modules/appium-xcuitest-driver/node_modules/appium-ios-tuntap/src/tuntap.cc:168-169 | a list without the device is left unchanged |
| Registry.WithoutIdempotent | node_modules/appium-xcuitest-driver/node_modules/appium-ios-tuntap/src/tuntap.cc:165-171 | unregistering twice is the same as once |
| Registry.RegisterThenUnregister | node_modules/appium-xcuitest-driver/node_modules/appium-ios-tuntap/src/tuntap.cc:160-171 | registering a new device and unregistering it restores the list |
| Registry.DeviceRegistry.Register | node_modules/appium-xcuitest-driver/node_modules/appium-ios-tuntap/src/tuntap.cc:160-163 | push_back appends the device |
| Registry.DeviceRegistry.Unregister | node_modules/appium-xcuitest-driver/node_modules/appium-ios-tuntap/src/tuntap.cc:165-171 | erase-remove leaves the list without any entry of the device, others in order |

## Left out

- System calls (socket, ioctl CTLIOCGINFO/TUNSETIFF, connect, getsockopt, stat, open, fcntl, read, write, close) are not executed. Their replies are inputs: `OpenCalls`, `ReadCall`, `WriteCall`, `Status`.
- The kernel's convention that unit u is named "utun" followed by u-1 is not part of the model of Open: the name comes from the getsockopt reply. The lemmas about the resulting name take that convention as a hypothesis.
- Descriptor numbers are modelled as never reused by the kernel. That is what lets a ghost set record every descriptor closed.
- N-API and libuv are not modelled: Init, DefineClass, buffers, exceptions, ThreadSafeFunction, uv_poll_init, uv_poll_start and the JavaScript callback call. A JavaScript function is a number (`Listener`), and the results of uv_poll_init and uv_poll_start are booleans.
- Poll handles and thread-safe functions are modelled as ghost counters. On a uv_poll_start failure the source frees a handle that libuv already initialised; the model counts it as freed and does not model libuv's view of it.
- device_mutex_, g_devices_mutex and the atomics are not modelled. Everything is sequential.
- g_shutdown_requested is an input flag, because nothing in the file sets it. The signal handler flag is unused in the file and is not modelled.
- Exception message texts and the fprintf logging in PollCallback are not modelled. Errors keep only their kind and errno.
- Strings are sequences of characters. The UTF-8 conversion of name_ is not modelled, so one character stands for one byte of ifr_name.
- Napi::Number::Uint32Value of a non-integral number is not modelled; `BufferSize` takes an integer.
- GetName (tuntap.cc:473-476) is not a separate member: it returns the field `name`, which every contract above states.
- Utun.IntIncrement: `stoi(...) + 1` overflowing at INT_MAX is undefined behaviour in C++. The model takes the two's-complement result a compiled build gives; it does not claim that result.
- RegisterDevice and UnregisterDevice are defined but never called in the file, so no device operation touches the registry.

=== FILE: errors.dfy ===
/** The JavaScript exceptions the native TunDevice methods throw, and the shape of an
    N-API reply. Message texts are not modelled; where the message carries strerror(errno),
    the errno is kept. */
module Errors {
  import opened Os

  datatype TunError =
    | ShutdownInProgress            // Open and Write while shutdown is requested
    | ControlSocketFailed(errno: int)   // socket(PF_SYSTEM, ...) failed
    | ControlInfoFailed(errno: int)     // ioctl(CTLIOCGINFO) failed
    | SpecifiedUnitFailed(errno: int)   // connect() to the unit the name asked for failed
    | UnitConnectFailed(errno: int)     // connect() failed during the search with errno != EBUSY
    | NoAvailableUtun                   // every unit 1..254 answered EBUSY
    | InterfaceNameFailed(errno: int)   // getsockopt(UTUN_OPT_IFNAME) failed
    | DeviceNodeMissing                 // stat("/dev/net/tun") failed
    | DeviceNodeOpenFailed(errno: int)  // open("/dev/net/tun") failed
    | ConfigureFailed(errno: int)       // ioctl(TUNSETIFF) failed
    | GetFlagsFailed(errno: int)        // fcntl(F_GETFL) failed
    | SetNonBlockingFailed(errno: int)  // fcntl(F_SETFL, O_NONBLOCK) failed
    | DeviceNotOpen
    | ReadFailed(errno: int)
    | ExpectedBuffer
    | WriteFailed(errno: int)
    | ExpectedFunction
    | PollInitFailed
    | PollStartFailed

  /** What a native method hands back to JavaScript: the value it returns and the exception
      it leaves pending, if any (a pending exception hides the value from the caller). */
  datatype Reply<T> = Reply(value: T, thrown: Option<TunError>)
}

=== FILE: file_descriptor.dfy ===
/** The RAII descriptor wrapper of the driver: a single owner of one descriptor number,
    with -1 meaning "holds nothing". */
module Handles {
  import opened Os

  class FileDescriptor {
    /** The process-wide table that ::close acts on. */
    const table: Descriptors
    var fd: int

    /** The handle holds either nothing or a descriptor that is still open. */
    ghost predicate Valid()
      reads this, table
    {
      table.Valid() && (fd >= 0 ==> fd in table.open)
    }

    /** is_valid() */
    predicate IsValid()
      reads this
    {
      fd >= 0
    }

    /** FileDescriptor(): a handle that holds nothing. */
    constructor (table: Descriptors)
      ensures this.table == table && fd == -1 && !IsValid()
      ensures table.Valid() ==> Valid()
    {
      this.table := table;
      fd := -1;
    }

    /** FileDescriptor(int fd): take ownership of whatever the system call returned. */
    constructor Own(table: Descriptors, fd: int)
      ensures this.table == table && this.fd == fd
      ensures table.Valid() && (fd < 0 || fd in table.open) ==> Valid()
    {
      this.table := table;
      this.fd := fd;
    }

    /** The move constructor: the new handle takes the descriptor, `other` is left holding nothing. */
    constructor Take(other: FileDescriptor)
      modifies other
      ensures table == other.table && fd == old(other.fd) && other.fd == -1
      ensures old(other.Valid()) ==> Valid() && other.Valid()
    {
      table := other.table;
      fd := other.fd;
      new;
      other.fd := -1;
    }

    /** ~FileDescriptor(): closes the descriptor if one is held; the handle must not be used afterwards. */
    method Destroy()
      requires Valid()
      modifies table
      ensures table.Valid()
      ensures table.open == old(table.open) - Owned(fd)
      ensures table.closed == old(table.closed) + Owned(fd) && table.next == old(table.next)
    {
      if fd >= 0 {
        table.Close(fd);
      }
    }

    /** release(): hand the descriptor to the caller without closing it. */
    method Release() returns (held: int)
      modifies this
      ensures held == old(fd) && fd == -1 && !IsValid()
      ensures old(Valid()) ==> Valid() && (held >= 0 ==> held in table.open)
    {
      held := fd;
      fd := -1;
    }

    /** reset(newFd): close the descriptor held, if any, then hold `newFd`. */
    method Reset(newFd: int)
      requires Valid()
      modifies this, table
      ensures fd == newFd && table.Valid()
      ensures table.open == old(table.open) - Owned(old(fd))
      ensures table.closed == old(table.closed) + Owned(old(fd)) && table.next == old(table.next)
      ensures Valid() <==> (newFd < 0 || newFd in table.open)
    {
      if fd >= 0 {
        table.Close(fd);
      }
      fd := newFd;
    }

    /** Move assignment: unless `other` is this very handle, close what this handle holds,
        take `other`'s descriptor and leave `other` holding nothing. Two distinct handles never
        own the same descriptor. */
    method MoveAssign(other: FileDescriptor)
      requires Valid() && other.Valid() && other.table == table
      requires other != this && IsValid() && other.IsValid() ==> fd != other.fd
      modifies this, other, table
      ensures Valid() && other.Valid()
      ensures other == this ==> fd == old(fd) && table.open == old(table.open) && table.closed == old(table.closed)
      ensures other != this ==>
        && fd == old(other.fd) && other.fd == -1
        && table.open == old(table.open) - Owned(old(fd))
        && table.closed == old(table.closed) + Owned(old(fd))
      ensures table.next == old(table.next)
    {
      if other != this {
        if fd >= 0 {
          table.Close(fd);
        }
        fd := other.fd;
        other.fd := -1;
      }
    }
  }
}

=== FILE: framing.dfy ===
/** Packet framing of the driver. On Darwin every frame on a utun descriptor carries a
    4-byte address-family header: reads strip it, writes prepend AF_INET6 in network byte
    order. On Linux (IFF_NO_PI) the bytes pass through unchanged. */
module Framing {
  import opened Os

  /** AF_INET6 on Darwin, the family Write puts in front of every packet. */
  const AF_INET6: bv32 := 30

  /** htonl: the four bytes of x, most significant first. */
  function BigEndian32(x: bv32): (b: seq<Byte>)
    ensures |b| == 4
  {
    [(x >> 24) as Byte, ((x >> 16) & 0xFF) as Byte, ((x >> 8) & 0xFF) as Byte, (x & 0xFF) as Byte]
  }

  /** ntohl: the number four bytes denote, most significant first. */
  function FromBigEndian32(b: seq<Byte>): bv32
    requires |b| == 4
  {
    (b[0] as bv32 << 24) | (b[1] as bv32 << 16) | (b[2] as bv32 << 8) | b[3] as bv32
  }

  /** Reading the four bytes back as a big-endian number gives x again. */
  lemma BigEndian32RoundTrip(x: bv32)
    ensures FromBigEndian32(BigEndian32(x)) == x
  {
  }

  /** The header the driver writes: htonl(AF_INET6) is 00 00 00 1E. */
  lemma Inet6Header()
    ensures BigEndian32(AF_INET6) == [0x00, 0x00, 0x00, 0x1E]
  {
  }

  /** Bytes of header a frame carries in front of the packet. */
  function HeaderLength(p: Platform): nat
  {
    if p == Darwin then 4 else 0
  }

  /** The bytes Write hands to write(2) for `packet`. */
  function Frame(p: Platform, packet: seq<Byte>): (frame: seq<Byte>)
    ensures |frame| == |packet| + HeaderLength(p)
    ensures frame[HeaderLength(p)..] == packet
  {
    if p == Darwin then BigEndian32(AF_INET6) + packet else packet
  }

  /** The packet the driver returns for the bytes one read(2) delivered: on Darwin what
      follows the 4-byte header, or nothing when no byte follows it; on Linux all of them. */
  function Unframe(p: Platform, received: seq<Byte>): (packet: seq<Byte>)
    ensures |packet| <= |received| && packet == received[|received| - |packet|..]
    ensures |received| > HeaderLength(p) ==> |packet| == |received| - HeaderLength(p)
  {
    if p == Linux then received
    else if |received| > 4 then received[4..]
    else []
  }

  /** What Write reports for a write(2) that stored `written` bytes: on Darwin the header
      is not counted (`written > 4 ? written - 4 : 0`); on Linux the count is passed on. */
  function ReportedCount(p: Platform, written: int): (r: int)
    ensures written >= 0 ==> 0 <= r <= written
    ensures written >= HeaderLength(p) ==> r == written - HeaderLength(p)
  {
    if p == Linux then written
    else if written > 4 then written - 4
    else 0
  }

  /** A frame is the AF_INET6 header (Darwin only) followed by the packet, unchanged. */
  lemma FrameLayout(p: Platform, packet: seq<Byte>)
    ensures |Frame(p, packet)| == |packet| + HeaderLength(p)
    ensures Frame(p, packet)[HeaderLength(p)..] == packet
    ensures p == Darwin ==> Frame(p, packet)[..4] == [0x00, 0x00, 0x00, 0x1E]
  {
    Inet6Header();
  }

  /** A 40-byte IPv6 packet written on Darwin reaches the kernel as 44 bytes. */
  lemma FrameOfIPv6Header(packet: seq<Byte>)
    requires |packet| == 40
    ensures |Frame(Darwin, packet)| == 44
  {
  }

  /** Reading back a frame the driver wrote yields the packet it was given. */
  lemma UnframeFrame(p: Platform, packet: seq<Byte>)
    ensures Unframe(p, Frame(p, packet)) == packet
  {
    if p == Darwin {
      var frame := BigEndian32(AF_INET6) + packet;
      assert frame[4..] == packet;
    }
  }

  /** The packet returned for a read of at most `size` packet bytes (plus the header on
      Darwin) is never longer than `size`, and is a contiguous piece of what was read. */
  lemma UnframeBound(p: Platform, received: seq<Byte>, size: nat)
    requires |received| <= size + HeaderLength(p)
    ensures |Unframe(p, received)| <= size
    ensures |received| > HeaderLength(p) ==> Unframe(p, received) == received[HeaderLength(p)..]
  {
  }

  /** The count Write reports is the number of packet bytes (not header bytes) that reached
      the kernel: all of the packet when the whole frame was stored. */
  lemma ReportedCountIsPacketBytes(p: Platform, packet: seq<Byte>, written: nat)
    requires written <= |Frame(p, packet)|
    ensures var r := ReportedCount(p, written);
      && 0 <= r <= |packet|
      && (written == |Frame(p, packet)| ==> r == |packet|)
      && Frame(p, packet)[..written] == Frame(p, packet)[..written - r] + packet[..r]
  {
    FrameLayout(p, packet);
    var frame := Frame(p, packet);
    var r := ReportedCount(p, written);
    assert frame[..written] == frame[..written - r] + frame[written - r..written];
    assert frame[written - r..written] == packet[..r];
  }

  /** A read large enough for the packet returns exactly the packet an earlier write framed. */
  lemma ReadBackFrame(p: Platform, packet: seq<Byte>, size: nat, errno: int)
    requires |packet| <= size
    ensures Unframe(p, Received(Packet(Frame(p, packet), errno), size + HeaderLength(p))) == packet
  {
    FrameLayout(p, packet);
    var frame := Frame(p, packet);
    assert Received(Packet(frame, errno), size + HeaderLength(p)) == frame;
    UnframeFrame(p, packet);
  }
}

=== FILE: os.dfy ===
/** The operating-system side of the TUN/TAP driver: the process's descriptor table,
    the errno values the driver tests, and the replies of the system calls it issues.
    No system call is executed here: each reply is an input supplied by the caller. */
module Os {

  /** One byte as read(2) and write(2) move them. */
  type Byte = bv8

  datatype Option<T> = None | Some(value: T)

  /** The two code paths of the driver, chosen at compile time by `__APPLE__`. */
  datatype Platform = Darwin | Linux

  /** EBUSY: a utun unit that is already taken (the same value on both platforms). */
  const EBUSY: int := 16

  /** EAGAIN; EWOULDBLOCK has the same value on both platforms. */
  function EAGAIN(p: Platform): int
  {
    if p == Darwin then 35 else 11
  }

  /** errno says that a non-blocking read found nothing to read (EAGAIN or EWOULDBLOCK). */
  predicate WouldBlock(p: Platform, errno: int)
  {
    errno == EAGAIN(p)
  }

  /** Reply of a system call that either succeeds or fails with an errno. */
  datatype Status = Ok | Fail(errno: int)

  function Min(a: int, b: int): int
  {
    if a <= b then a else b
  }

  /** Reply of one read(2) on a tun descriptor: either the next queued packet, of which the
      kernel copies at most the requested count (the rest of that packet is dropped) while errno
      keeps whatever value it had, or -1 with errno set. */
  datatype ReadCall = Packet(queued: seq<Byte>, errno: int) | ReadError(errno: int)

  /** The bytes a read(2) asking for `count` bytes returns. */
  function Received(call: ReadCall, count: nat): (r: seq<Byte>)
    requires call.Packet?
    ensures |r| <= count && r <= call.queued
    ensures count >= |call.queued| ==> r == call.queued
  {
    call.queued[..Min(count, |call.queued|)]
  }

  /** Reply of one write(2): the kernel stores at most `limit` bytes, or fails with errno. */
  datatype WriteCall = Accepts(limit: nat) | WriteError(errno: int)

  /** The count a successful write(2) of `length` bytes returns. */
  function Written(call: WriteCall, length: nat): (r: nat)
    requires call.Accepts?
    ensures r <= length && r <= call.limit
    ensures call.limit >= length ==> r == length
  {
    Min(call.limit, length)
  }

  /** The descriptors a handle holding `fd` owns: none when fd is -1 (or any negative value). */
  function Owned(fd: int): set<int>
  {
    if fd >= 0 then {fd} else {}
  }

  /** The process's descriptor table, as far as the driver's ownership discipline needs it.
      Descriptor numbers are handed out in increasing order and never reused, so `closed`
      records every descriptor ever closed. */
  class Descriptors {
    var open: set<int>
    var next: int
    ghost var closed: set<int>

    ghost predicate Valid()
      reads this
    {
      && 0 <= next
      && (forall f :: f in open ==> 0 <= f < next)
      && (forall f :: f in closed ==> 0 <= f < next)
      && open !! closed
    }

    constructor ()
      ensures Valid() && open == {} && closed == {}
    {
      open, next, closed := {}, 0, {};
    }

    /** socket(2) or open(2): a new descriptor when the call succeeds, -1 when it fails. */
    method OpenDescriptor(reply: Status) returns (fd: int)
      requires Valid()
      modifies this
      ensures Valid() && closed == old(closed)
      ensures reply.Ok? ==> fd == old(next) && fd !in old(open) + old(closed)
                            && open == old(open) + {fd} && next == old(next) + 1
      ensures reply.Fail? ==> fd == -1 && open == old(open) && next == old(next)
    {
      if reply.Ok? {
        fd := next;
        open := open + {fd};
        next := next + 1;
      } else {
        fd := -1;
      }
    }

    /** close(2) on a descriptor the caller owns. Requiring `fd in open` is the ownership
        discipline: a descriptor that is closed can never be closed again. */
    method Close(fd: int)
      requires Valid() && fd in open
      modifies this
      ensures Valid()
      ensures fd !in old(closed)
      ensures open == old(open) - {fd} && closed == old(closed) + {fd} && next == old(next)
    {
      open := open - {fd};
      closed := closed + {fd};
    }
  }
}

=== FILE: registry.dfy ===
/** g_active_devices: the process-wide list of live devices, with RegisterDevice (push_back)
    and UnregisterDevice (the erase-remove idiom). */
module Registry {
  import opened TunTap

  /** s with every occurrence of x taken out, the others kept in their order. */
  function Without<T(==)>(s: seq<T>, x: T): (r: seq<T>)
    ensures |r| <= |s|
  {
    if |s| == 0 then []
    else Without(s[..|s| - 1], x) + (if s[|s| - 1] == x then [] else [s[|s| - 1]])
  }

  /** Removing distributes over concatenation: std::remove is stable. */
  lemma {:induction false} WithoutAppend<T>(a: seq<T>, b: seq<T>, x: T)
    ensures Without(a + b, x) == Without(a, x) + Without(b, x)
    decreases |b|
  {
    if |b| == 0 {
      assert a + b == a;
    } else {
      var b' := b[..|b| - 1];
      assert (a + b)[..|a + b| - 1] == a + b';
      assert (a + b)[|a + b| - 1] == b[|b| - 1];
      WithoutAppend(a, b', x);
    }
  }

  /** Nothing equal to x is left. */
  lemma {:induction false} WithoutRemoves<T>(s: seq<T>, x: T)
    ensures x !in Without(s, x)
    decreases |s|
  {
    if |s| > 0 {
      WithoutRemoves(s[..|s| - 1], x);
    }
  }

  /** How often y occurs in s, counted from its last element. */
  lemma CountLast<T>(s: seq<T>, y: T)
    requires |s| > 0
    ensures multiset(s)[y] == multiset(s[..|s| - 1])[y] + (if s[|s| - 1] == y then 1 else 0)
  {
    assert s == s[..|s| - 1] + [s[|s| - 1]];
  }

  /** Every element other than x keeps its number of occurrences. */
  lemma {:induction false} WithoutKeepsOthers<T>(s: seq<T>, x: T, y: T)
    requires y != x
    ensures multiset(Without(s, x))[y] == multiset(s)[y]
    decreases |s|
  {
    if |s| > 0 {
      var init, last := s[..|s| - 1], s[|s| - 1];
      WithoutKeepsOthers(init, x, y);
      CountLast(s, y);
      if last != x {
        var w := Without(init, x) + [last];
        assert w[..|w| - 1] == Without(init, x);
        CountLast(w, y);
      }
    }
  }

  /** A list without x is left as it is. */
  lemma {:induction false} WithoutAbsent<T>(s: seq<T>, x: T)
    requires x !in s
    ensures Without(s, x) == s
    decreases |s|
  {
    if |s| > 0 {
      var init := s[..|s| - 1];
      WithoutAbsent(init, x);
      assert s == init + [s[|s| - 1]];
    }
  }

  /** Unregistering twice is the same as unregistering once. */
  lemma WithoutIdempotent<T>(s: seq<T>, x: T)
    ensures Without(Without(s, x), x) == Without(s, x)
  {
    WithoutRemoves(s, x);
    WithoutAbsent(Without(s, x), x);
  }

  /** Registering a device that was not in the list and unregistering it restores the list. */
  lemma RegisterThenUnregister<T>(s: seq<T>, x: T)
    requires x !in s
    ensures Without(s + [x], x) == s
  {
    assert (s + [x])[..|s + [x]| - 1] == s;
    WithoutAbsent(s, x);
  }

  class DeviceRegistry {
    var devices: seq<TunDevice>

    constructor ()
      ensures devices == []
    {
      devices := [];
    }

    /** RegisterDevice(): g_active_devices.push_back(this). */
    method Register(d: TunDevice)
      modifies this
      ensures devices == old(devices) + [d]
    {
      devices := devices + [d];
    }

    /** UnregisterDevice(): erase(remove(begin, end, this), end), one pass over the list
        keeping every entry that is not `d`. */
    method Unregister(d: TunDevice)
      modifies this
      ensures devices == Without(old(devices), d)
    {
      var kept: seq<TunDevice> := [];
      var i := 0;
      while i < |devices|
        invariant 0 <= i <= |devices|
        invariant kept == Without(devices[..i], d)
      {
        assert devices[..i + 1][..i] == devices[..i];
        if devices[i] != d {
          kept := kept + [devices[i]];
        }
        i := i + 1;
      }
      assert devices[..i] == devices;
      devices := kept;
    }
  }
}

=== FILE: tun_device.dfy ===
/** The TunDevice object JavaScript sees: one TUN interface, its descriptor, its name and
    the poll handle plus thread-safe callback that deliver incoming packets. */
module TunTap {
  import opened Os
  import opened Errors
  import opened Utun
  import opened Framing
  import opened Handles

  // ---------------------------------------------------------------------------
  // Interface names on Linux

  /** IFNAMSIZ of <net/if.h>: the size of ifr_name, terminating NUL included. */
  const IFNAMSIZ: nat := 16

  /** What std::string(const char*) keeps of s: everything before the first NUL. */
  function UntilNul(s: string): (r: string)
    ensures r <= s && '\0' !in r
    ensures |r| < |s| ==> s[|r|] == '\0'
  {
    if |s| == 0 || s[0] == '\0' then [] else [s[0]] + UntilNul(s[1..])
  }

  /** The name put into ifr_name for TUNSETIFF: strncpy of name_.c_str() limited to
      IFNAMSIZ - 1 characters, stopping at a NUL. An empty name leaves ifr_name zeroed,
      asking the kernel to choose. */
  function RequestName(name: string): (r: string)
    ensures |r| <= IFNAMSIZ - 1 && '\0' !in r && r <= name
    ensures |r| < IFNAMSIZ - 1 ==> |r| == |name| || name[|r|] == '\0'
    ensures '\0' !in name && |name| <= IFNAMSIZ - 1 ==> r == name
  {
    var c := UntilNul(name);
    if |c| <= IFNAMSIZ - 1 then c else c[..IFNAMSIZ - 1]
  }

  /** A string without NUL survives std::string(const char*) unchanged. */
  lemma UntilNulOfNulFree(s: string)
    requires '\0' !in s
    ensures UntilNul(s) == s
  {
    assert |UntilNul(s)| == |s|;
  }

  /** The kernel's utun names contain no NUL. */
  lemma UtunNameIsNulFree(unit: nat)
    requires unit >= 1
    ensures '\0' !in UtunName(unit)
  {
    var d := Decimal(unit - 1);
    assert UtunName(unit) == "utun" + d;
    assert forall i :: 0 <= i < |d| ==> d[i] != '\0';
  }

  // ---------------------------------------------------------------------------
  // What Open asks the operating system, and what it concludes

  /** Reply of getsockopt(UTUN_OPT_IFNAME) or ioctl(TUNSETIFF): the name the kernel wrote
      into the driver's buffer, or a failure. */
  datatype NameReply = Named(name: string) | Refused(errno: int)

  /** The replies of every system call Open can issue. On Darwin: socket(PF_SYSTEM),
      ioctl(CTLIOCGINFO), connect() per unit, getsockopt(UTUN_OPT_IFNAME). On Linux:
      stat("/dev/net/tun"), open("/dev/net/tun"), ioctl(TUNSETIFF) per requested name.
      On both: fcntl(F_GETFL) and fcntl(F_SETFL, flags | O_NONBLOCK). */
  datatype OpenCalls = OpenCalls(
    socket: Status,
    controlInfo: Status,
    connect: int -> Status,
    interfaceName: NameReply,
    deviceNode: bool,
    openNode: Status,
    configure: string -> NameReply,
    getFlags: Status,
    setFlags: Status)

  /** The outcome of one attempt to open: the exception raised, if any, and the value name_
      holds afterwards. */
  datatype Attempt = Attempt(failure: Option<TunError>, name: string)

  /** The last step of Open on both platforms: switch the descriptor to non-blocking mode.
      The interface name is already recorded, whatever happens here. */
  function NonBlocking(name: string, sys: OpenCalls): (a: Attempt)
    ensures a.name == name
    ensures a.failure.None? <==> sys.getFlags.Ok? && sys.setFlags.Ok?
  {
    if sys.getFlags.Fail? then Attempt(Some(GetFlagsFailed(sys.getFlags.errno)), name)
    else if sys.setFlags.Fail? then Attempt(Some(SetNonBlockingFailed(sys.setFlags.errno)), name)
    else Attempt(None, name)
  }

  /** The Darwin path: a control socket, the utun control id, a unit, then the unit's name. */
  function DarwinAttempt(name: string, sys: OpenCalls): (a: Attempt)
    ensures a.failure.None? ==>
      && sys.socket.Ok? && sys.controlInfo.Ok? && ChooseUnit(RequestedUnit(name), sys.connect).Unit?
      && sys.interfaceName.Named? && a.name == UntilNul(sys.interfaceName.name)
  {
    if sys.socket.Fail? then Attempt(Some(ControlSocketFailed(sys.socket.errno)), name)
    else if sys.controlInfo.Fail? then Attempt(Some(ControlInfoFailed(sys.controlInfo.errno)), name)
    else
      match ChooseUnit(RequestedUnit(name), sys.connect)
      case NoUnit(e) => Attempt(Some(e), name)
      case Unit(_) =>
        match sys.interfaceName
        case Refused(e) => Attempt(Some(InterfaceNameFailed(e)), name)
        case Named(n) => NonBlocking(UntilNul(n), sys)
  }

  /** The Linux path: /dev/net/tun must exist and open, then TUNSETIFF names the interface. */
  function LinuxAttempt(name: string, sys: OpenCalls): (a: Attempt)
    ensures a.failure.None? ==>
      && sys.deviceNode && sys.openNode.Ok? && sys.configure(RequestName(name)).Named?
      && a.name == UntilNul(sys.configure(RequestName(name)).name)
  {
    if !sys.deviceNode then Attempt(Some(DeviceNodeMissing), name)
    else if sys.openNode.Fail? then Attempt(Some(DeviceNodeOpenFailed(sys.openNode.errno)), name)
    else
      match sys.configure(RequestName(name))
      case Refused(e) => Attempt(Some(ConfigureFailed(e)), name)
      case Named(n) => NonBlocking(UntilNul(n), sys)
  }

  /** Open succeeds only when every system call on its platform's path succeeded, and the
      device is then named by what the kernel reported, without NUL. */
  function OpenAttempt(p: Platform, name: string, sys: OpenCalls): (a: Attempt)
    ensures a.failure.None? ==>
      DescriptorReply(p, sys).Ok? && sys.getFlags.Ok? && sys.setFlags.Ok? && '\0' !in a.name
  {
    if p == Darwin then DarwinAttempt(name, sys) else LinuxAttempt(name, sys)
  }

  /** The reply Open passes to the descriptor table for the descriptor it creates. */
  function DescriptorReply(p: Platform, sys: OpenCalls): Status
  {
    if p == Darwin then sys.socket else sys.openNode
  }

  /** Asking for "utunN" (N + 1 a positive int) gets exactly that interface when its unit
      connects and every later step succeeds. */
  lemma OpenGetsRequestedUtun(unit: nat, sys: OpenCalls)
    requires 1 <= unit <= INT_MAX
    requires sys.socket.Ok? && sys.controlInfo.Ok? && sys.connect(unit).Ok?
    requires sys.interfaceName == Named(UtunName(unit)) && sys.getFlags.Ok? && sys.setFlags.Ok?
    ensures OpenAttempt(Darwin, UtunName(unit), sys) == Attempt(None, UtunName(unit))
  {
    var n := UtunName(unit);
    assert RequestedUnit(n) == unit by {
      UtunNameRoundTrip(unit, []);
      assert n + [] == n;
    }
    assert UntilNul(n) == n by {
      UtunNameIsNulFree(unit);
      UntilNulOfNulFree(n);
    }
  }

  /** A requested unit is tried once: when it does not connect, Open fails with that errno
      and never falls back to searching. */
  lemma OpenRequestedUtunBusy(unit: nat, sys: OpenCalls)
    requires 1 <= unit <= INT_MAX
    requires sys.socket.Ok? && sys.controlInfo.Ok? && sys.connect(unit).Fail?
    ensures OpenAttempt(Darwin, UtunName(unit), sys)
         == Attempt(Some(SpecifiedUnitFailed(sys.connect(unit).errno)), UtunName(unit))
  {
    var n := UtunName(unit);
    assert RequestedUnit(n) == unit by {
      UtunNameRoundTrip(unit, []);
      assert n + [] == n;
    }
  }

  /** Without a usable "utunN" request, Open takes the first unit that connects after a run
      of busy ones and names the device after it. */
  lemma OpenTakesFirstFreeUnit(name: string, sys: OpenCalls, unit: int)
    requires RequestedUnit(name) <= 0
    requires sys.socket.Ok? && sys.controlInfo.Ok?
    requires 1 <= unit <= LastUnit && sys.connect(unit).Ok? && AllBusy(sys.connect, 1, unit)
    requires sys.interfaceName == Named(UtunName(unit)) && sys.getFlags.Ok? && sys.setFlags.Ok?
    ensures OpenAttempt(Darwin, name, sys) == Attempt(None, UtunName(unit))
  {
    SearchFindsFirstFree(sys.connect, 1, unit);
    UtunNameIsNulFree(unit);
    UntilNulOfNulFree(UtunName(unit));
  }

  /** When all 254 units are busy, Open fails with NoAvailableUtun and the name is kept. */
  lemma OpenNoFreeUnit(name: string, sys: OpenCalls)
    requires RequestedUnit(name) <= 0
    requires sys.socket.Ok? && sys.controlInfo.Ok? && AllBusy(sys.connect, 1, LastUnit + 1)
    ensures OpenAttempt(Darwin, name, sys) == Attempt(Some(NoAvailableUtun), name)
  {
    SearchExhausted(sys.connect, 1);
  }

  /** On Linux a short name without NUL is requested as it is; when the kernel grants it,
      the device keeps that name. */
  lemma LinuxOpenKeepsShortName(name: string, sys: OpenCalls)
    requires '\0' !in name && |name| <= IFNAMSIZ - 1
    requires sys.deviceNode && sys.openNode.Ok? && sys.configure(name) == Named(name)
    requires sys.getFlags.Ok? && sys.setFlags.Ok?
    ensures OpenAttempt(Linux, name, sys) == Attempt(None, name)
  {
    assert RequestName(name) == name;
    UntilNulOfNulFree(name);
  }

  /** name_ only changes once the interface exists: a failure before the name is known
      leaves it as it was. */
  lemma OpenRenamesOnlyNamedDevices(p: Platform, name: string, sys: OpenCalls)
    ensures var a := OpenAttempt(p, name, sys);
      a.name != name ==>
        a.failure.None? || a.failure.value.GetFlagsFailed? || a.failure.value.SetNonBlockingFailed?
  {
    var a := OpenAttempt(p, name, sys);
    if p == Darwin && sys.socket.Ok? && sys.controlInfo.Ok? {
      var choice := ChooseUnit(RequestedUnit(name), sys.connect);
      if choice.Unit? && sys.interfaceName.Named? {
        assert a == NonBlocking(UntilNul(sys.interfaceName.name), sys);
      }
    }
  }

  /** Once a unit connected and the kernel reported its name, the device carries that name,
      whether or not the switch to non-blocking mode then succeeds. */
  lemma DarwinNameIsUnitName(name: string, sys: OpenCalls, unit: int)
    requires sys.socket.Ok? && sys.controlInfo.Ok?
    requires ChooseUnit(RequestedUnit(name), sys.connect) == Unit(unit)
    requires sys.interfaceName == Named(UtunName(unit))
    ensures OpenAttempt(Darwin, name, sys).name == UtunName(unit)
  {
    UtunNameIsNulFree(unit);
    UntilNulOfNulFree(UtunName(unit));
  }

  /** An open attempt on Darwin without a descriptor fails at the first step. */
  lemma OpenWithoutSocket(name: string, sys: OpenCalls)
    requires DescriptorReply(Darwin, sys).Fail?
    ensures OpenAttempt(Darwin, name, sys).failure == Some(ControlSocketFailed(sys.socket.errno))
  {
  }

  // ---------------------------------------------------------------------------
  // The device

  /** A JavaScript function passed to startPolling, by identity. */
  type Listener = nat

  /** The default size of read(), and the size of the buffer the poll callback reads into. */
  const DefaultReadSize: nat := 4096

  /** UV_READABLE of libuv's uv_poll_event. */
  const UV_READABLE: bv32 := 1

  /** The read size JavaScript asked for, converted by Napi::Number::Uint32Value (modulo 2^32). */
  function BufferSize(size: Option<int>): (n: nat)
    ensures n < 0x1_0000_0000
    ensures size.None? ==> n == DefaultReadSize
    ensures size.Some? && 0 <= size.value < 0x1_0000_0000 ==> n == size.value
    ensures size.Some? ==> (n - size.value) % 0x1_0000_0000 == 0
  {
    if size.Some? then size.value % 0x1_0000_0000 else DefaultReadSize
  }

  datatype Lifecycle = Closed | Opened | Polling

  class TunDevice {
    const platform: Platform
    const table: Descriptors
    /** fd_ */
    const fd: FileDescriptor
    /** name_ */
    var name: string
    /** is_open_ */
    var isOpen: bool
    /** poll_handle_: the descriptor a started uv_poll_t watches, None for nullptr. */
    var poll: Option<int>
    /** tsfn_: the listener the thread-safe function calls, None for an empty tsfn_. */
    var listener: Option<Listener>

    /** Poll handles allocated and freed, thread-safe functions created and released. */
    ghost var handlesAllocated: nat
    ghost var handlesFreed: nat
    ghost var functionsCreated: nat
    ghost var functionsReleased: nat

    /** Every poll handle allocated is freed unless it is the one in poll_handle_, and every
        thread-safe function created is released unless it is the one in tsfn_. */
    ghost predicate Accounted()
      reads this
    {
      && handlesAllocated == handlesFreed + (if poll.Some? then 1 else 0)
      && functionsCreated == functionsReleased + (if listener.Some? then 1 else 0)
    }

    ghost predicate Valid()
      reads this, fd, table
    {
      && fd.table == table && fd.Valid()
      && (isOpen <==> fd.fd >= 0)
      && (!isOpen ==> fd.fd == -1)
      && (poll.Some? ==> isOpen && poll.value == fd.fd && listener.Some?)
      && (listener.Some? ==> isOpen)
      && Accounted()
    }

    function State(): Lifecycle
      reads this
    {
      if !isOpen then Closed else if poll.Some? then Polling else Opened
    }

    /** new TunDevice(name?): a closed device; a string argument becomes the requested name. */
    constructor (platform: Platform, table: Descriptors, nameArg: Option<string>)
      requires table.Valid()
      ensures Valid() && State() == Closed && fresh(fd)
      ensures this.platform == platform && this.table == table && fd.fd == -1
      ensures name == (if nameArg.Some? then nameArg.value else "")
    {
      this.platform := platform;
      this.table := table;
      fd := new FileDescriptor(table);
      name := if nameArg.Some? then nameArg.value else "";
      isOpen := false;
      poll := None;
      listener := None;
      handlesAllocated, handlesFreed, functionsCreated, functionsReleased := 0, 0, 0, 0;
    }

    /** getFd(): the descriptor, -1 while the device is closed. */
    function GetFd(): (r: int)
      requires Valid()
      reads this, fd, table
      ensures r >= 0 <==> isOpen
      ensures !isOpen ==> r == -1
      ensures r >= 0 ==> r in table.open
    {
      fd.fd
    }

    /** The steps of Open after the descriptor was requested, up to the non-blocking switch.
        `handle` is what socket(2) or open(2) returned. */
    method Acquire(handle: int, sys: OpenCalls) returns (a: Attempt)
      requires handle >= 0 <==> DescriptorReply(platform, sys).Ok?
      requires platform == Linux ==> sys.deviceNode
      ensures a == OpenAttempt(platform, name, sys)
    {
      var newName: string;
      if platform == Darwin {
        if handle < 0 {
          return Attempt(Some(ControlSocketFailed(sys.socket.errno)), name);
        }
        if sys.controlInfo.Fail? {
          return Attempt(Some(ControlInfoFailed(sys.controlInfo.errno)), name);
        }
        var requested := RequestedUnit(name);
        var unit: int;
        if requested > 0 {
          var reply := sys.connect(requested);
          if reply.Fail? {
            return Attempt(Some(SpecifiedUnitFailed(reply.errno)), name);
          }
          unit := requested;
        } else {
          var choice, tried := FindFreeUnit(sys.connect);
          if choice.NoUnit? {
            return Attempt(Some(choice.error), name);
          }
          unit := choice.unit;
        }
        var reported := sys.interfaceName;
        if reported.Refused? {
          return Attempt(Some(InterfaceNameFailed(reported.errno)), name);
        }
        newName := UntilNul(reported.name);
      } else {
        if handle < 0 {
          return Attempt(Some(DeviceNodeOpenFailed(sys.openNode.errno)), name);
        }
        var reply := sys.configure(RequestName(name));
        if reply.Refused? {
          return Attempt(Some(ConfigureFailed(reply.errno)), name);
        }
        newName := UntilNul(reply.name);
      }
      if sys.getFlags.Fail? {
        return Attempt(Some(GetFlagsFailed(sys.getFlags.errno)), newName);
      }
      if sys.setFlags.Fail? {
        return Attempt(Some(SetNonBlockingFailed(sys.setFlags.errno)), newName);
      }
      a := Attempt(None, newName);
    }

    /** open(): true when the device is (already) open. A new descriptor is kept only when
        every step succeeded; on any failure it is closed again, so nothing leaks. */
    method Open(shutdown: bool, sys: OpenCalls) returns (r: Reply<bool>)
      requires Valid()
      modifies this, fd, table
      ensures Valid()
      ensures old(isOpen) ==> r == Reply(true, None) && unchanged(this, fd, table)
      ensures !old(isOpen) && shutdown ==>
        r == Reply(false, Some(ShutdownInProgress)) && unchanged(this, fd, table)
      ensures !old(isOpen) && !shutdown ==>
        var a := OpenAttempt(platform, old(name), sys);
        && r == Reply(a.failure.None?, a.failure)
        && name == a.name
        && isOpen == a.failure.None? && poll == None && listener == None
        && (a.failure.None? ==> fd.fd == old(table.next) && table.open == old(table.open) + {fd.fd})
        && (a.failure.Some? ==> fd.fd == old(fd.fd) && table.open == old(table.open))
        && table.next <= old(table.next) + 1
        && (a.failure.None? ==> table.closed == old(table.closed))
        && (a.failure.Some? && DescriptorReply(platform, sys).Ok? && (platform == Darwin || sys.deviceNode) ==>
              table.closed == old(table.closed) + {old(table.next)})
        && (a.failure.Some? && (DescriptorReply(platform, sys).Fail? || (platform == Linux && !sys.deviceNode)) ==>
              table.closed == old(table.closed) && table.next == old(table.next))
    {
      if isOpen {
        return Reply(true, None);
      }
      if shutdown {
        return Reply(false, Some(ShutdownInProgress));
      }
      if platform == Linux && !sys.deviceNode {
        return Reply(false, Some(DeviceNodeMissing));
      }
      var raw := table.OpenDescriptor(DescriptorReply(platform, sys));
      var temp := new FileDescriptor.Own(table, raw);
      var a := Acquire(raw, sys);
      name := a.name;
      if a.failure.None? {
        fd.MoveAssign(temp);
        isOpen := true;
      }
      temp.Destroy();
      r := Reply(a.failure.None?, a.failure);
    }

    /** StopPolling(): stop and free the poll handle, release the thread-safe function. */
    method StopPolling()
      requires Accounted()
      modifies this`poll, this`listener, this`handlesFreed, this`functionsReleased
      ensures Accounted() && poll == None && listener == None
      ensures handlesFreed == old(handlesFreed) + (if old(poll).Some? then 1 else 0)
      ensures functionsReleased == old(functionsReleased) + (if old(listener).Some? then 1 else 0)
    {
      if poll.Some? {
        handlesFreed := handlesFreed + 1;
        poll := None;
      }
      if listener.Some? {
        functionsReleased := functionsReleased + 1;
        listener := None;
      }
    }

    /** CloseInternal(): the first call after the device opened stops polling and closes the
        descriptor; any later call finds is_open_ false and does nothing. */
    method CloseInternal()
      requires Valid()
      modifies this, fd, table
      ensures Valid() && State() == Closed && poll == None && listener == None
      ensures name == old(name) && fd.fd == -1
      ensures table.open == old(table.open) - Owned(old(fd.fd))
      ensures table.closed == old(table.closed) + Owned(old(fd.fd)) && table.next == old(table.next)
      ensures !old(isOpen) ==> unchanged(table) && unchanged(this)
    {
      var wasOpen := isOpen;
      isOpen := false;
      if wasOpen {
        StopPolling();
        fd.Reset(-1);
      }
    }

    /** close(): always answers true. */
    method Close() returns (r: bool)
      requires Valid()
      modifies this, fd, table
      ensures r && Valid() && State() == Closed && name == old(name)
      ensures table.open == old(table.open) - Owned(old(fd.fd))
      ensures table.closed == old(table.closed) + Owned(old(fd.fd)) && table.next == old(table.next)
      ensures !old(isOpen) ==> unchanged(table)
    {
      CloseInternal();
      r := true;
    }

    /** ~TunDevice(): CloseInternal, then the destructor of fd_, which holds nothing by then. */
    method Destroy()
      requires Valid()
      modifies this, fd, table
      ensures table.Valid() && table.open == old(table.open) - Owned(old(fd.fd))
      ensures handlesAllocated == handlesFreed && functionsCreated == functionsReleased
    {
      CloseInternal();
      fd.Destroy();
    }

    /** read(size?): the next packet, without the Darwin header and at most `size` bytes;
        an empty buffer when nothing is queued or shutdown is in progress; null with an
        exception when the device is closed or read(2) fails. */
    method Read(shutdown: bool, size: Option<int>, call: ReadCall) returns (r: Reply<Option<seq<Byte>>>)
      requires Valid()
      ensures !isOpen ==> r == Reply(None, Some(DeviceNotOpen))
      ensures isOpen && shutdown ==> r == Reply(Some([]), None)
      ensures isOpen && !shutdown ==>
        var n := BufferSize(size);
        var h := HeaderLength(platform);
        && (r.value.Some? <==> r.thrown.None?)
        && (r.value.Some? ==> |r.value.value| <= n)
        && (call.Packet? && r.value.Some? ==> r.value.value == Unframe(platform, Received(call, n + h)))
        && (call.Packet? && |Received(call, n + h)| > h ==> r == Reply(Some(Received(call, n + h)[h..]), None))
        && (call.Packet? && |Received(call, n + h)| <= h ==>
              if platform == Darwin && |Received(call, n + h)| == 0 && !WouldBlock(platform, call.errno)
              then r == Reply(None, Some(ReadFailed(call.errno)))
              else r == Reply(Some([]), None))
        && (call.ReadError? ==>
              if WouldBlock(platform, call.errno) then r == Reply(Some([]), None)
              else r == Reply(None, Some(ReadFailed(call.errno))))
    {
      if !isOpen || !fd.IsValid() {
        return Reply(None, Some(DeviceNotOpen));
      }
      if shutdown {
        return Reply(Some([]), None);
      }
      var n := BufferSize(size);
      var h := HeaderLength(platform);
      var count: int;
      var bytes: seq<Byte> := [];
      if call.Packet? {
        bytes := Received(call, n + h);
        count := |bytes|;
      } else {
        count := -1;
      }
      if platform == Darwin {
        if count <= 0 {
          if WouldBlock(platform, call.errno) {
            return Reply(Some([]), None);
          }
          return Reply(None, Some(ReadFailed(call.errno)));
        }
        if count > 4 {
          r := Reply(Some(bytes[4..]), None);
        } else {
          r := Reply(Some([]), None);
        }
      } else {
        if count < 0 {
          if WouldBlock(platform, call.errno) {
            return Reply(Some([]), None);
          }
          return Reply(None, Some(ReadFailed(call.errno)));
        }
        r := Reply(Some(bytes), None);
      }
      UnframeBound(platform, bytes, n);
    }

    /** write(buffer): the frame handed to write(2) (`sent`) and the count reported back,
        -1 with an exception when the device is closed, shutdown is in progress, the
        argument is not a buffer or write(2) fails. */
    method Write(shutdown: bool, data: Option<seq<Byte>>, call: WriteCall) returns (r: Reply<int>, sent: Option<seq<Byte>>)
      requires Valid()
      ensures !isOpen ==> r == Reply(-1, Some(DeviceNotOpen)) && sent == None
      ensures isOpen && shutdown ==> r == Reply(-1, Some(ShutdownInProgress)) && sent == None
      ensures isOpen && !shutdown && data.None? ==> r == Reply(-1, Some(ExpectedBuffer)) && sent == None
      ensures isOpen && !shutdown && data.Some? ==>
        && sent == Some(Frame(platform, data.value))
        && (call.WriteError? ==> r == Reply(-1, Some(WriteFailed(call.errno))))
        && (call.Accepts? ==>
              && r.thrown == None
              && r.value == ReportedCount(platform, Written(call, |sent.value|))
              && 0 <= r.value <= |data.value|
              && (call.limit >= |sent.value| ==> r.value == |data.value|))
    {
      sent := None;
      if !isOpen || !fd.IsValid() {
        return Reply(-1, Some(DeviceNotOpen)), sent;
      }
      if shutdown {
        return Reply(-1, Some(ShutdownInProgress)), sent;
      }
      if data.None? {
        return Reply(-1, Some(ExpectedBuffer)), sent;
      }
      var frame := Frame(platform, data.value);
      sent := Some(frame);
      if call.WriteError? {
        return Reply(-1, Some(WriteFailed(call.errno))), sent;
      }
      var written := Written(call, |frame|);
      ReportedCountIsPacketBytes(platform, data.value, written);
      r := Reply(ReportedCount(platform, written), None);
    }

    /** startPolling(callback): replace any earlier polling by a thread-safe function for
        `callback` and a poll handle on the descriptor. `initOk` and `startOk` are the results
        of uv_poll_init and uv_poll_start. */
    method StartPolling(callback: Option<Listener>, initOk: bool, startOk: bool) returns (thrown: Option<TunError>)
      requires Valid()
      modifies this`poll, this`listener, this`handlesAllocated, this`handlesFreed,
               this`functionsCreated, this`functionsReleased
      ensures Valid()
      ensures !isOpen ==> thrown == Some(DeviceNotOpen) && unchanged(this)
      ensures isOpen && callback.None? ==> thrown == Some(ExpectedFunction) && unchanged(this)
      ensures isOpen && callback.Some? ==>
        && listener == callback
        && functionsReleased == old(functionsReleased) + (if old(listener).Some? then 1 else 0)
        && (thrown.None? <==> initOk && startOk)
        && (thrown.None? ==> State() == Polling && poll == Some(fd.fd))
        && (!initOk ==> thrown == Some(PollInitFailed) && poll == None)
        && (initOk && !startOk ==> thrown == Some(PollStartFailed) && poll == None)
    {
      if !isOpen || !fd.IsValid() {
        return Some(DeviceNotOpen);
      }
      if callback.None? {
        return Some(ExpectedFunction);
      }
      StopPolling();
      listener := callback;
      functionsCreated := functionsCreated + 1;
      handlesAllocated := handlesAllocated + 1;
      if !initOk {
        handlesFreed := handlesFreed + 1;
        return Some(PollInitFailed);
      }
      if !startOk {
        handlesFreed := handlesFreed + 1;
        return Some(PollStartFailed);
      }
      poll := Some(fd.fd);
      thrown := None;
    }

    /** PollCallback(status, events): on a readable event, read up to 4096 bytes and hand the
        packet (without the Darwin header) to the listener; errors and empty reads deliver
        nothing. */
    method PollCallback(status: int, events: bv32, call: ReadCall) returns (delivered: Option<seq<Byte>>)
      requires Valid()
      ensures delivered.Some? <==>
        && status >= 0 && events & UV_READABLE != 0 && isOpen
        && call.Packet? && |Received(call, DefaultReadSize)| > HeaderLength(platform)
      ensures delivered.Some? ==>
        && delivered.value == Unframe(platform, Received(call, DefaultReadSize))
        && 0 < |delivered.value| <= DefaultReadSize - HeaderLength(platform)
    {
      if status < 0 {
        return None;
      }
      if events & UV_READABLE == 0 {
        return None;
      }
      if !isOpen || !fd.IsValid() {
        return None;
      }
      if call.ReadError? {
        return None;
      }
      var bytes := Received(call, DefaultReadSize);
      if |bytes| <= 0 {
        return None;
      }
      if platform == Darwin {
        if |bytes| > 4 {
          delivered := Some(bytes[4..]);
        } else {
          delivered := None;
        }
      } else {
        delivered := Some(bytes);
      }
    }
  }
}

=== FILE: utun.dfy ===
/** Which utun unit the Darwin path of TunDevice::Open connects to: the unit a requested
    interface name asks for ("utunN" is kernel unit N+1), or else the first free unit of 1..254. */
module Utun {
  import opened Os
  import opened Errors

  const INT_MIN: int := -0x8000_0000
  const INT_MAX: int := 0x7fff_ffff

  /** `n + 1` on a 32-bit C `int`: INT_MAX + 1 wraps around to INT_MIN, as the compiled
      two's-complement addition does. */
  function IntIncrement(n: int): (r: int)
    requires INT_MIN <= n <= INT_MAX
    ensures INT_MIN <= r <= INT_MAX
    ensures r == n + 1 || (n == INT_MAX && r == INT_MIN)
  {
    if n == INT_MAX then INT_MIN else n + 1
  }

  // ---------------------------------------------------------------------------
  // std::stoi, base 10

  /** isspace in the C locale: space, \t, \n, \v, \f, \r. */
  predicate IsSpace(c: char)
  {
    c == ' ' || '\t' <= c <= '\r'
  }

  predicate IsDigit(c: char)
  {
    '0' <= c <= '9'
  }

  predicate AllDigits(s: string)
  {
    forall i :: 0 <= i < |s| ==> IsDigit(s[i])
  }

  function DigitValue(c: char): nat
    requires IsDigit(c)
  {
    c as int - '0' as int
  }

  function DigitChar(d: nat): (c: char)
    requires d < 10
    ensures IsDigit(c) && DigitValue(c) == d
  {
    ('0' as int + d) as char
  }

  /** s without its leading white space. */
  function SkipSpace(s: string): (t: string)
    ensures |t| <= |s| && forall i :: 0 <= i < |t| ==> t[i] == s[|s| - |t| + i]
    ensures forall i :: 0 <= i < |s| - |t| ==> IsSpace(s[i])
    ensures |t| > 0 ==> !IsSpace(t[0])
  {
    if |s| > 0 && IsSpace(s[0]) then
      var t := SkipSpace(s[1..]);
      assert forall i :: 0 <= i < |t| ==> t[i] == s[1..][|s| - 1 - |t| + i];
      t
    else s
  }

  /** SkipSpace leaves a string that does not start with white space as it is. */
  lemma SkipSpaceStops(s: string)
    requires |s| > 0 && !IsSpace(s[0])
    ensures SkipSpace(s) == s
  {
  }

  /** The digits at the start of s, up to the first character that is not one. */
  function Digits(s: string): (ds: string)
    ensures AllDigits(ds)
  {
    if |s| > 0 && IsDigit(s[0]) then [s[0]] + Digits(s[1..]) else []
  }

  /** Digits(s) is the longest prefix of s made of decimal digits. */
  lemma {:induction false} DigitsIsLongestDigitPrefix(s: string)
    ensures |Digits(s)| <= |s| && Digits(s) == s[..|Digits(s)|]
    ensures AllDigits(Digits(s))
    ensures |Digits(s)| < |s| ==> !IsDigit(s[|Digits(s)|])
  {
    if |s| > 0 && IsDigit(s[0]) {
      DigitsIsLongestDigitPrefix(s[1..]);
      assert s == [s[0]] + s[1..];
    }
  }

  /** The number a run of decimal digits denotes, most significant digit first. */
  function DecimalValue(ds: string): nat
    requires AllDigits(ds)
  {
    if |ds| == 0 then 0 else DecimalValue(ds[..|ds| - 1]) * 10 + DigitValue(ds[|ds| - 1])
  }

  /** std::stoi(s): strtol in base 10 (leading white space, an optional sign, then the longest
      run of digits) followed by the range check of int. None is the exception stoi throws:
      invalid_argument when no digit follows, out_of_range when the value does not fit an int. */
  function Stoi(s: string): (r: Option<int>)
    ensures r.Some? ==> INT_MIN <= r.value <= INT_MAX
  {
    var t := SkipSpace(s);
    var signed := |t| > 0 && (t[0] == '-' || t[0] == '+');
    SignedValue(signed && t[0] == '-', if signed then t[1..] else t)
  }

  /** The digits at the start of u, negated if a minus sign preceded them, if they fit an int. */
  function SignedValue(negative: bool, u: string): Option<int>
  {
    var ds := Digits(u);
    if |ds| == 0 then None
    else
      var magnitude: int := DecimalValue(ds);
      var v := if negative then -magnitude else magnitude;
      if INT_MIN <= v <= INT_MAX then Some(v) else None
  }

  /** n in decimal without leading zeros. */
  function Decimal(n: nat): (s: string)
    ensures |s| > 0 && AllDigits(s)
  {
    if n < 10 then [DigitChar(n)] else Decimal(n / 10) + [DigitChar(n % 10)]
  }

  lemma {:induction false} DecimalRoundTrip(n: nat)
    ensures DecimalValue(Decimal(n)) == n
  {
    if n >= 10 {
      DecimalRoundTrip(n / 10);
      var s := Decimal(n);
      assert s[..|s| - 1] == Decimal(n / 10);
    }
  }

  /** Digits stops exactly at the first character that is not a digit. */
  lemma DigitsStopAt(ds: string, rest: string)
    requires AllDigits(ds)
    requires rest == [] || !IsDigit(rest[0])
    ensures Digits(ds + rest) == ds
  {
    var s := ds + rest;
    DigitsIsLongestDigitPrefix(s);
    assert s[..|ds|] == ds;
  }

  /** stoi of an unsigned run of digits followed by a non-digit: its value when it fits an int. */
  lemma StoiUnsigned(ds: string, rest: string)
    requires |ds| > 0 && AllDigits(ds)
    requires rest == [] || !IsDigit(rest[0])
    ensures Stoi(ds + rest) == if DecimalValue(ds) <= INT_MAX then Some(DecimalValue(ds)) else None
  {
    StoiOfDigit(ds + rest);
    DigitsStopAt(ds, rest);
    UnsignedDigits(ds + rest, ds);
  }

  /** stoi of a string that starts with a digit reads it without a sign. */
  lemma StoiOfDigit(u: string)
    requires |u| > 0 && IsDigit(u[0])
    ensures Stoi(u) == SignedValue(false, u)
  {
    SkipSpaceStops(u);
  }

  /** The value of the digits u starts with, when it fits an int. */
  lemma UnsignedDigits(u: string, ds: string)
    requires Digits(u) == ds && |ds| > 0
    ensures SignedValue(false, u) == if DecimalValue(ds) <= INT_MAX then Some(DecimalValue(ds)) else None
  {
  }

  /** stoi skips a leading white-space character: "utun 7" requests the same unit as "utun7". */
  lemma StoiSkipsSpace(c: char, s: string)
    requires IsSpace(c)
    ensures Stoi([c] + s) == Stoi(s)
  {
    assert ([c] + s)[1..] == s;
  }

  /** stoi reads a decimal number back, ignoring whatever non-digit text follows it. */
  lemma StoiDecimal(n: nat, rest: string)
    requires rest == [] || !IsDigit(rest[0])
    ensures Stoi(Decimal(n) + rest) == if n <= INT_MAX then Some(n) else None
  {
    StoiUnsigned(Decimal(n), rest);
    DecimalRoundTrip(n);
  }

  /** A minus sign before a run of digits of value v and a non-digit: -v when it fits an int. */
  lemma SignedNegative(ds: string, rest: string, v: nat)
    requires |ds| > 0 && AllDigits(ds) && DecimalValue(ds) == v
    requires rest == [] || !IsDigit(rest[0])
    ensures SignedValue(true, ds + rest) == if v <= -INT_MIN then Some(-(v as int)) else None
  {
    DigitsStopAt(ds, rest);
    NegatedDigits(ds + rest, ds, v);
  }

  /** The negated value v of the digits u starts with, when it fits an int. */
  lemma NegatedDigits(u: string, ds: string, v: nat)
    requires Digits(u) == ds && |ds| > 0 && DecimalValue(ds) == v
    ensures SignedValue(true, u) == if v <= -INT_MIN then Some(-(v as int)) else None
  {
  }

  /** stoi of a plus sign and what follows it reads the digits after the sign, unsigned. */
  lemma StoiPlusSign(ds: string, rest: string)
    ensures Stoi(['+'] + ds + rest) == SignedValue(false, ds + rest)
  {
    var s := ['+'] + ds + rest;
    assert s[0] == '+' && s[1..] == ds + rest;
    SkipSpaceStops(s);
  }

  /** strtol accepts an explicit plus sign: "+N" reads as N does. */
  lemma StoiPlus(ds: string, rest: string)
    requires |ds| > 0 && AllDigits(ds)
    requires rest == [] || !IsDigit(rest[0])
    ensures Stoi(['+'] + ds + rest) == Stoi(ds + rest)
  {
    StoiPlusSign(ds, rest);
    StoiOfDigit(ds + rest);
  }

  /** stoi of a minus sign and what follows it reads the digits after the sign, negated. */
  lemma StoiMinus(ds: string, rest: string)
    ensures Stoi(['-'] + ds + rest) == SignedValue(true, ds + rest)
  {
    var s := ['-'] + ds + rest;
    assert s[0] == '-' && s[1..] == ds + rest;
    SkipSpaceStops(s);
  }

  /** stoi of a minus sign, a run of digits of value v and a non-digit: -v when it fits an
      int. */
  lemma StoiNegative(ds: string, rest: string, v: nat)
    requires |ds| > 0 && AllDigits(ds) && DecimalValue(ds) == v
    requires rest == [] || !IsDigit(rest[0])
    ensures Stoi(['-'] + ds + rest) == if v <= -INT_MIN then Some(-(v as int)) else None
  {
    StoiMinus(ds, rest);
    SignedNegative(ds, rest, v);
  }

  /** stoi reads a negated decimal number back, down to INT_MIN ("-2147483648"), and throws
      below it. */
  lemma StoiNegativeDecimal(n: nat, rest: string)
    requires rest == [] || !IsDigit(rest[0])
    ensures Stoi(['-'] + Decimal(n) + rest) == if n <= -INT_MIN then Some(-(n as int)) else None
  {
    DecimalRoundTrip(n);
    StoiNegative(Decimal(n), rest, n);
  }

  // ---------------------------------------------------------------------------
  // Interface name -> unit

  /** The interface name the kernel gives utun unit `unit` (unit 1 is utun0). */
  function UtunName(unit: nat): string
    requires unit >= 1
  {
    "utun" + Decimal(unit - 1)
  }

  predicate HasUtunPrefix(name: string)
  {
    |name| >= 4 && name[..4] == "utun"
  }

  /** The unit a requested interface name asks for: std::stoi of what follows "utun", plus one,
      in C int arithmetic. 0 when the name is empty, lacks the prefix, or stoi throws. A result
      that is not positive means "search for a free unit". */
  function RequestedUnit(name: string): (unit: int)
    ensures INT_MIN <= unit <= INT_MAX
  {
    if |name| > 0 && HasUtunPrefix(name) then
      match Stoi(name[4..])
      case Some(n) => IntIncrement(n)
      case None => 0
    else
      0
  }

  /** A name without the "utun" prefix (including the empty name) requests no unit. */
  lemma RequestedUnitWithoutPrefix(name: string)
    requires !HasUtunPrefix(name)
    ensures RequestedUnit(name) == 0
  {
  }

  /** The unit requested by "utun" followed by `suffix`. */
  lemma RequestedUnitOfSuffix(suffix: string)
    ensures RequestedUnit("utun" + suffix) == match Stoi(suffix) case Some(n) => IntIncrement(n) case None => 0
  {
    var name := "utun" + suffix;
    assert name[..4] == "utun" && name[4..] == suffix;
  }

  /** "utun" followed by digits (and text that does not start with a digit) requests the unit
      one above their value, when that value is below INT_MAX. */
  lemma RequestedUnitOfDigits(name: string, ds: string, rest: string)
    requires |ds| > 0 && AllDigits(ds) && DecimalValue(ds) < INT_MAX
    requires rest == [] || !IsDigit(rest[0])
    requires name == "utun" + (ds + rest)
    ensures RequestedUnit(name) == DecimalValue(ds) + 1
  {
    RequestedUnitOfSuffix(ds + rest);
    StoiUnsigned(ds, rest);
  }

  /** "utunN", optionally followed by text that does not start with a digit, requests kernel
      unit N+1: the kernel's own name for a unit leads back to that unit. */
  lemma UtunNameRoundTrip(unit: nat, rest: string)
    requires 1 <= unit <= INT_MAX
    requires rest == [] || !IsDigit(rest[0])
    ensures RequestedUnit(UtunName(unit) + rest) == unit
  {
    var ds := Decimal(unit - 1);
    assert DecimalValue(ds) == unit - 1 by {
      DecimalRoundTrip(unit - 1);
    }
    assert UtunName(unit) + rest == "utun" + (ds + rest);
    RequestedUnitOfDigits(UtunName(unit) + rest, ds, rest);
  }

  /** "utunN" with N beyond int makes stoi throw, so no unit is requested. */
  lemma RequestedUnitOutOfRange(n: nat)
    requires n > INT_MAX
    ensures RequestedUnit("utun" + Decimal(n)) == 0
  {
    RequestedUnitOfSuffix(Decimal(n));
    StoiDecimal(n, []);
    assert Decimal(n) + [] == Decimal(n);
  }

  /** "utun2147483647": stoi gives INT_MAX and the `+ 1` overflows to INT_MIN, which the
      driver treats as "search for a free unit". */
  lemma RequestedUnitOverflow(unit: nat)
    requires unit == INT_MAX + 1
    ensures RequestedUnit(UtunName(unit)) == INT_MIN
  {
    RequestedUnitOfSuffix(Decimal(unit - 1));
    StoiDecimal(unit - 1, []);
    assert Decimal(unit - 1) + [] == Decimal(unit - 1);
  }

  /** "utun-N" yields 1-N: a negative index never requests a unit above 1. */
  lemma RequestedUnitNegative(n: nat)
    requires n <= INT_MAX
    ensures RequestedUnit("utun-" + Decimal(n)) == 1 - n
  {
    DecimalRoundTrip(n);
    RequestedUnitOfMinusDigits(Decimal(n), n);
  }

  /** "utun-" followed by digits of value v requests 1-v. */
  lemma RequestedUnitOfMinusDigits(ds: string, v: nat)
    requires |ds| > 0 && AllDigits(ds) && DecimalValue(ds) == v && v <= INT_MAX
    ensures RequestedUnit("utun-" + ds) == 1 - v
  {
    var suffix := ['-'] + ds + [];
    MinusSuffix(ds);
    RequestedUnitOfSuffix(suffix);
    StoiNegative(ds, [], v);
  }

  /** "utun+N" requests the same unit as "utunN". */
  lemma RequestedUnitPlus(ds: string)
    requires |ds| > 0 && AllDigits(ds)
    ensures RequestedUnit("utun+" + ds) == RequestedUnit("utun" + ds)
  {
    PlusSuffix(ds);
    RequestedUnitOfSuffix(['+'] + ds + []);
    RequestedUnitOfSuffix(ds);
    assert Stoi(['+'] + ds + []) == Stoi(ds) by {
      StoiPlus(ds, []);
      assert ds + [] == ds;
    }
  }

  /** "utun+" + ds is "utun" followed by a plus sign and ds. */
  lemma PlusSuffix(ds: string)
    ensures "utun+" + ds == "utun" + (['+'] + ds + [])
  {
  }

  /** "utun-" + ds is "utun" followed by a minus sign and ds. */
  lemma MinusSuffix(ds: string)
    ensures "utun-" + ds == "utun" + (['-'] + ds + [])
  {
  }

  // ---------------------------------------------------------------------------
  // Choosing the unit

  /** The loop `for (sc_unit = 1; sc_unit < 255; sc_unit++)` tries units up to this one. */
  const LastUnit: int := 254

  datatype UnitChoice = Unit(unit: int) | NoUnit(error: TunError)

  /** Every unit in [lo, hi) answers connect() with EBUSY. */
  ghost predicate AllBusy(connect: int -> Status, lo: int, hi: int)
  {
    forall v :: lo <= v < hi ==> connect(v) == Fail(EBUSY)
  }

  /** The search from unit `from` on: the first unit that connects, an abort on the first
      failure other than EBUSY, or NoAvailableUtun once unit 254 was busy too. */
  function Search(connect: int -> Status, from: int): (r: UnitChoice)
    requires 1 <= from <= LastUnit + 1
    ensures r.Unit? ==> from <= r.unit <= LastUnit
    decreases LastUnit + 1 - from
  {
    if from == LastUnit + 1 then NoUnit(NoAvailableUtun)
    else
      match connect(from)
      case Ok => Unit(from)
      case Fail(e) => if e == EBUSY then Search(connect, from + 1) else NoUnit(UnitConnectFailed(e))
  }

  /** The search finds unit u exactly when u is free and every unit before it is busy. */
  lemma {:induction false} SearchFindsFirstFree(connect: int -> Status, from: int, u: int)
    requires 1 <= from <= LastUnit + 1
    ensures Search(connect, from) == Unit(u) <==>
            from <= u <= LastUnit && connect(u) == Ok && AllBusy(connect, from, u)
    decreases LastUnit + 1 - from
  {
    if from <= LastUnit && connect(from) == Fail(EBUSY) {
      SearchFindsFirstFree(connect, from + 1, u);
    }
  }

  /** The search aborts with the errno of the first unit that fails with something other than EBUSY. */
  lemma {:induction false} SearchAbortsOnError(connect: int -> Status, from: int, u: int, e: int)
    requires 1 <= from <= u <= LastUnit
    requires connect(u) == Fail(e) && e != EBUSY && AllBusy(connect, from, u)
    ensures Search(connect, from) == NoUnit(UnitConnectFailed(e))
    decreases u - from
  {
    if from < u {
      SearchAbortsOnError(connect, from + 1, u, e);
    }
  }

  /** NoAvailableUtun is reported exactly when every unit of the range is busy. */
  lemma {:induction false} SearchExhausted(connect: int -> Status, from: int)
    requires 1 <= from <= LastUnit + 1
    ensures Search(connect, from) == NoUnit(NoAvailableUtun) <==> AllBusy(connect, from, LastUnit + 1)
    decreases LastUnit + 1 - from
  {
    if from <= LastUnit {
      if connect(from) == Fail(EBUSY) {
        SearchExhausted(connect, from + 1);
      } else {
        assert !AllBusy(connect, from, LastUnit + 1) by {
          assert from <= from < LastUnit + 1;
        }
      }
    }
  }

  /** The unit Open connects to: a positive requested unit is tried once and its failure is
      final; otherwise the search runs. */
  function ChooseUnit(requested: int, connect: int -> Status): (r: UnitChoice)
    ensures r.Unit? ==> r.unit >= 1
    ensures requested > 0 ==> r == (if connect(requested).Ok? then Unit(requested)
                                    else NoUnit(SpecifiedUnitFailed(connect(requested).errno)))
  {
    if requested > 0 then
      match connect(requested)
      case Ok => Unit(requested)
      case Fail(e) => NoUnit(SpecifiedUnitFailed(e))
    else
      Search(connect, 1)
  }

  /** The search loop itself. `tried` lists the units handed to connect(), in order. */
  method FindFreeUnit(connect: int -> Status) returns (choice: UnitChoice, tried: seq<int>)
    ensures choice == Search(connect, 1)
    ensures 1 <= |tried| <= LastUnit
    ensures forall i :: 0 <= i < |tried| ==> tried[i] == i + 1
    ensures AllBusy(connect, 1, |tried|)
    ensures choice.Unit? ==> choice.unit == |tried|
    ensures choice.NoUnit? && choice.error.UnitConnectFailed? ==> connect(|tried|) == Fail(choice.error.errno)
    ensures choice == NoUnit(NoAvailableUtun) ==> |tried| == LastUnit
  {
    var unit := 1;
    tried := [];
    while unit < LastUnit + 1
      invariant 1 <= unit <= LastUnit + 1
      invariant |tried| == unit - 1
      invariant forall i :: 0 <= i < |tried| ==> tried[i] == i + 1
      invariant AllBusy(connect, 1, unit)
      invariant Search(connect, 1) == Search(connect, unit)
    {
      tried := tried + [unit];
      var reply := connect(unit);
      if reply.Ok? {
        choice := Unit(unit);
        return;
      } else if reply.errno != EBUSY {
        choice := NoUnit(UnitConnectFailed(reply.errno));
        return;
      }
      unit := unit + 1;
    }
    choice := NoUnit(NoAvailableUtun);
  }
}
